=== FILE: README.md ===
# Range-keyed LRU cache and splay-tree memo table, in Dafny

This project models the core of a small Python benchmark of two caching
strategies, and proves the invariants those caches rely on.

- `LruCache` (`lru_cache.dfy`) models `LRUCache` from `task_1.py`. The
  `OrderedDict` becomes a sequence of `Entry(key, value)` with pairwise
  distinct keys. Index 0 is the least recently used entry and the last index
  the most recently used one. A key is an inclusive index range `(start, end)`.
  - `Get` returns the sentinel `Miss` (-1) for an absent key, as the source
    does. A stored value of -1 therefore reads as a miss.
  - `Put` writes a key and refreshes it. It then evicts the front entry if the
    cache has grown past its capacity.
  - `Invalidate` drops every range that covers a position.
- `RangeSum` (`range_sum.dfy`) models `range_sum_no_cache`,
  `update_no_cache` and `CachedArrayProcessor`. The array is a `seq<int>`.
  The central invariant is `Coherent`: every cached `(L, R) -> v` has `v`
  equal to the sum of the array over `[L, R]`.
  - `RangeSumWithCache` answers the true sum and keeps the invariant.
  - `UpdateWithCache` keeps the invariant.
  - `CachedMatchesPlain` lifts this to whole workloads. Start from a coherent
    processor, such as a fresh one, and take a query list whose every range
    and index lies inside the array. Then the cached processor answers every
    query exactly as the uncached functions do.
- `SplayTree` (`splay_tree.dfy`) models `Node` and `SplayTree` from
  `task_2.py`. Every node has exactly one parent, and `_splay` returns the new
  subtree root. So the tree is the algebraic datatype
  `Tree = Leaf | Node(left, key, value, right)`, and every operation is a pure
  function that returns the new root. `Find`, a plain binary-search lookup
  that does not restructure the tree, is the reference for what the tree
  stores.
- `Fibonacci` (`fibonacci.dfy`) models `fibonacci_splay`. It is checked
  against `Fib`, the plain recurrence that `fibonacci_lru` memoizes. The memo
  table it receives is required to be a search tree whose values are correct
  (`Memoizes`). Every table the source passes in starts empty and is grown only
  by `fibonacci_splay` itself, so the requirement holds for all of them.
- `Wrappers` (`wrappers.dfy`) holds `Option`. It stands for the source's
  `None`.

Representation invariants that the Python objects keep by construction are
preconditions or premises here:
- the dictionary never holds a key twice (`DistinctKeys`);
- the tree is a strict binary search tree (`Bst`).

How the program behaves at its edges, and how the model treats each case:
- The program defines no errors of its own.
- A range is summed as the Python slice `array[L:R + 1]`. Slicing never
  raises:
  - For `0 <= R < L` the slice is empty and the sum is 0.
  - A negative bound counts from the end, so `L > R` does not always mean an
    empty slice. For example, `L = 0, R = -2` sums all but the last element.
  - `R = -1` makes the slice end 0, so the sum is 0 whatever `L` is.
  - A range reaching past the end is clamped, and the clamped sum is cached
    under `(L, R)`.
  The model requires `0 <= L <= R < |array|` and leaves all of these out.
- An update `array[index] = value` writes position `index` when
  `0 <= index < len(array)`. It writes position `len(array) + index` when
  `-len(array) <= index <= -1`. Any other index (`index >= len(array)` or
  `index < -len(array)`) raises Python's `IndexError`. The model requires
  `0 <= index < |array|` and leaves the other cases out (see "Left out").
- A negative `n` in `fibonacci_splay` returns `n`. The model does the same,
  and so does the reference recurrence `Fib`.
- Any integer is accepted as a cache capacity, and the model keeps
  `capacity: int`. The capacity bound (`Valid`) is stated for caches whose
  capacity is not negative.

## Model

| member | source | states |
|---|---|---|
| `LruCache.Empty` | task_1.py:8-10 | a fresh cache holds no key twice, has the given capacity, and is within it when the capacity is not negative |
| `LruCache.EmptyMisses` | task_1.py:8-16 | every lookup in a fresh cache returns -1 and leaves the cache empty |
| `LruCache.Without` | task_1.py:28-29 | deleting a key keeps exactly the entries with other keys, in their original order, and keeps keys distinct |
| `LruCache.Get` | task_1.py:12-16 | an absent key returns -1 and leaves the cache as it is; a present key returns its stored value and moves it to the most recent end, with the other entries in their old order; the entries and the size are unchanged as a set and a count |
| `LruCache.GetHit` | task_1.py:12-16 | a hit on a stored `(k, v)` returns `v`, keeps the size and leaves `k` as the most recently used entry |
| `LruCache.Put` | task_1.py:18-23 | a present key is overwritten and moved to the end with nothing evicted; a new key is appended; when the cache was full, exactly the front (least recently used) entry is evicted; a cache within capacity stays within it; keys stay distinct; no other value appears |
| `LruCache.PutThenGet` | task_1.py:12-23 | with capacity at least 1, reading a key right after writing it returns the written value |
| `LruCache.Invalidate` | task_1.py:25-29 | removes exactly the entries whose range covers the index; the survivors keep their values and relative order |
| `LruCache.FilterDropsOne` | task_1.py:19-20 | filtering out exactly one position of a sequence is the sequence with that position cut out, so moving a present key to the end keeps the other entries in their order |
| `LruCache.InvalidateIdempotent` | task_1.py:25-29 | invalidating the same index twice is the same as once |
| `LruCache.EvictionExample` | task_1.py:12-23 | capacity 2: after writing (0,5) and (6,10), reading (0,5) and writing (11,15), (6,10) is the entry evicted and reads as a miss |
| `RangeSum.RangeSumNoCache` | task_1.py:32-33 | summing the range element by element gives the sum of `array[L]` through `array[R]`, both inclusive |
| `RangeSum.UpdateNoCache` | task_1.py:36-37 | the array keeps its length, holds `v` at `i`, and every other element is unchanged |
| `RangeSum.NewProcessor` | task_1.py:40-43 | a fresh processor's empty cache is coherent, and within capacity when the capacity is not negative |
| `RangeSum.RangeSumWithCache` | task_1.py:45-52 | if every cached range holds its current sum, the answer is the sum of `array[L]` through `array[R]` and the cache stays coherent; the array is untouched; the answer is cached afterwards when capacity is at least 1 |
| `RangeSum.UpdateWithCache` | task_1.py:54-56 | the array changes as the uncached update changes it; exactly the cached ranges covering `i` are dropped; a coherent cache stays coherent |
| `RangeSum.SumAvoidsUpdate` | task_1.py:54-56 | a range that does not contain the written position sums the same before and after the write, which is why only covering ranges are invalidated |
| `RangeSum.CachedStepAgrees` | task_1.py:91-104 | one cached request gives the same answer and the same array as the uncached request, and keeps the cache coherent |
| `RangeSum.CachedMatchesPlain` | task_1.py:89-105 | replaying any list of range queries and updates, the cached processor returns the same answers as the uncached functions |
| `RangeSum.UpdateExample` | task_1.py:45-56 | over [1,2,3,4,5], the range (1,3) sums to 9; after writing 100 at position 2 it answers 106 |
| `SplayTree.RotateRight` | task_2.py:36-40 | with a left child present, the rotation keeps the in-order sequence, the key set and search order |
| `SplayTree.RotateLeft` | task_2.py:42-46 | with a right child present, the rotation keeps the in-order sequence, the key set and search order |
| `SplayTree.Splay` | task_2.py:48-73 | splaying keeps the in-order key/value sequence, the key set, emptiness and strict search order |
| `SplayTree.SplayBringsClosest` | task_2.py:48-73 | after splaying a non-empty search tree, the root is the searched key or its nearest neighbour: no key lies in [k, root) or (root, k] |
| `SplayTree.SplayFindsPresentKey` | task_2.py:48-73 | a key present in the search tree ends up at the root |
| `SplayTree.SplayKeepsMapping` | task_2.py:48-73 | splaying a search tree leaves every key reading the same value |
| `SplayTree.BstIffAscending` | task_2.py:48-73 | strict search-tree order holds exactly when the in-order keys strictly ascend, so keeping the in-order sequence keeps the order |
| `SplayTree.Get` | task_2.py:75-79 | the tree is restructured without changing its items; a hit leaves the key at the root and returns a value stored under that key |
| `SplayTree.GetMatchesFind` | task_2.py:75-79 | on a search tree, the answer is the plain lookup's answer (the stored value or None), a hit leaves the key at the root, and the mapping is unchanged |
| `SplayTree.Insert` | task_2.py:81-100 | the result is non-empty, holds every old item, holds the new key, and holds no item other than the old ones and the new `(k, v)` |
| `SplayTree.InsertKeepsSearchOrder` | task_2.py:81-100 | inserting into a search tree keeps strict search order and leaves the key at the root |
| `SplayTree.InsertUpdatesMapping` | task_2.py:86-100 | a present key keeps its old value and the in-order sequence is unchanged (first write wins); a new key reads `v`; every other key reads as before |
| `SplayTree.LookupExample` | task_2.py:75-100 | after inserting 5, 3, 8, 1, a lookup of 3 hits with 3 and leaves 3 at the root |
| `Fibonacci.Fib` | task_2.py:14-17 | the recurrence of `fibonacci_lru`, negative `n` included; its contract is only a sanity bound that the source does not state (non-negative from 0 upwards, at least 1 from 1 upwards) |
| `Fibonacci.MemoizesItems` | task_2.py:105-114 | a memo table is correct (every stored value is the Fibonacci number of its key) exactly when each of its in-order items is |
| `Fibonacci.InsertKeepsMemo` | task_2.py:110-113 | inserting a key with its Fibonacci number keeps a correct memo table correct |
| `Fibonacci.FibSplay` | task_2.py:105-114 | given a correct search-tree memo table (an empty one included), the result equals the recurrence F(n) = n for n < 2, F(n) = F(n-1) + F(n-2) of `fibonacci_lru`; the table stays a correct search tree, stores F(n) under `n` and loses no key |

## Left out

- `generate_test_data` and the timing and printing in `main` (task_1.py:59-114) are left out: they are random input and wall-clock I/O. The replay of one query list against both processors is modelled by `RunPlain` and `RunCached`.
- `measure_time` and the benchmark, table and plot script (task_2.py:119-156) are left out: they are timing, printing and plotting libraries.
- The `@lru_cache` decorator on `fibonacci_lru` is left out. It is library memoization, and only the recurrence it wraps is modelled, as `Fib`.
- `sys.setrecursionlimit` is left out. It is runtime stack configuration, and Dafny functions have no stack limit. So the `RecursionError` the source raises when `fibonacci_splay` or `_splay` recurses deeper than that limit (5000) is not modelled.
- `OrderedDict` internals are replaced by the sequence abstraction above. Its hashing and linked list are not modelled.
- UpdateNoCache: requires `0 <= i < |array|`. An index at or past the end, or below `-len(array)`, raises `IndexError` in the source (task_1.py:37), and that error path is not modelled. An index from `-len(array)` to `-1`, which writes position `len(array) + index`, is not modelled either.
- UpdateWithCache: requires `0 <= i < |array|`, so the `IndexError` for an index at or past the end or below `-len(array)` (task_1.py:55) is not modelled. In the source, `invalidate(index)` (task_1.py:27, 56) compares the cached bounds with the index as written, while the write and the cached slice both resolve negative positions from the end. So a cached entry goes stale whenever the write and the cached range use different index signs. A write at an index from `-len(array)` to `-1` (position `len(array) + index`) misses the non-negative ranges that cover that position. A non-negative write misses the ranges with a negative bound that cover it: on `[1, 2, 3, 4, 5]`, the range `(-3, -2)` caches 7, and after writing 100 at position 2 it still answers 7 instead of 104. The preconditions `0 <= i < |array|` here and `0 <= L <= R < |array|` on `RangeSumWithCache` leave this source defect out of the model.
- RangeSumNoCache: requires `0 <= L <= R < |array|`. The source's other slicing cases (task_1.py:33) are not modelled. For `0 <= R < L` it sums an empty slice to 0. For `R >= len(array)` it clamps the slice. Negative bounds count from the end, except that `R = -1` makes the slice end 0 and so sums an empty slice.
- RangeSumWithCache: requires `0 <= L <= R < |array|`. The same slicing cases as above are not modelled, including the clamped sum for `R >= len(array)`, which the source caches under `(L, R)` (task_1.py:50-51).
- Mutation in place is modelled as functions that return the new cache, processor or tree root. Aliasing of the caller's list passed to `CachedArrayProcessor` is not modelled.

=== FILE: fibonacci.dfy ===
/**
 * Fibonacci numbers memoized in a splay tree, checked against the plain
 * recurrence.
 */
module Fibonacci {
  import opened Wrappers
  import opened SplayTree

  /**
   * The reference recurrence: n itself below 2, else the sum of the two before.
   * Its contract is only a sanity bound on the values.
   */
  function Fib(n: int): (r: int)
    ensures 0 <= n ==> 0 <= r
    ensures 1 <= n ==> 1 <= r
    decreases n
  {
    if n < 2 then n else Fib(n - 1) + Fib(n - 2)
  }

  /** Every value stored in the memo table is the Fibonacci number of its key. */
  ghost predicate Memoizes(t: Tree) {
    match t
    case Leaf => true
    case Node(l, k, v, r) => v == Fib(k) && Memoizes(l) && Memoizes(r)
  }

  /** The memo table is correct exactly when each of its items is. */
  lemma {:induction false} MemoizesItems(t: Tree)
    ensures Memoizes(t) <==> forall it :: it in InOrder(t) ==> it.value == Fib(it.key)
  {
    if t.Node? {
      MemoizesItems(t.left);
      MemoizesItems(t.right);
      assert InOrder(t) == InOrder(t.left) + [Item(t.key, t.value)] + InOrder(t.right);
    }
  }

  /** Storing a correct value keeps a correct memo table correct. */
  lemma InsertKeepsMemo(t: Tree, k: int, v: int)
    ensures Memoizes(t) && v == Fib(k) ==> Memoizes(Insert(t, k, v))
  {
    MemoizesItems(t);
    MemoizesItems(Insert(t, k, v));
  }

  /** Restructuring without changing the items keeps a correct memo table correct. */
  lemma SameItemsMemo(t: Tree, u: Tree)
    requires InOrder(t) == InOrder(u)
    ensures Memoizes(t) ==> Memoizes(u)
  {
    MemoizesItems(t);
    MemoizesItems(u);
  }

  /**
   * Fibonacci of `n`, consulting and filling the splay-tree memo table: a hit
   * is returned as is; otherwise the value is computed from the two smaller
   * ones (n - 1 first) and inserted under `n`. From a correct search-tree
   * table, an empty one included, the result is the recurrence's value and
   * the table stays a correct search tree that stores it under `n`.
   */
  method FibSplay(n: int, t: Tree) returns (value: int, t': Tree)
    requires Bst(t) && Memoizes(t)
    ensures value == Fib(n)
    ensures Bst(t') && Memoizes(t')
    ensures n in Keys(t') && Keys(t) <= Keys(t')
    ensures Find(t', n) == Some(Fib(n))
    decreases n
  {
    var (cached, t1) := Get(t, n);
    SameItemsMemo(t, t1);
    if cached.Some? {
      MemoizesItems(t);
      value, t' := cached.value, t1;
      StoredIsFib(t', n);
    } else if n < 2 {
      value, t' := n, Insert(t1, n, n);
      InsertKeepsSearchOrder(t1, n, n);
      InsertKeepsMemo(t1, n, n);
      StoredIsFib(t', n);
    } else {
      var a, t2 := FibSplay(n - 1, t1);
      var b, t3 := FibSplay(n - 2, t2);
      value, t' := a + b, Insert(t3, n, a + b);
      InsertKeepsSearchOrder(t3, n, a + b);
      InsertKeepsMemo(t3, n, a + b);
      StoredIsFib(t', n);
    }
  }

  /** In a correct search-tree memo table, a stored key reads its Fibonacci number. */
  lemma StoredIsFib(t: Tree, n: int)
    requires Bst(t) && Memoizes(t) && n in Keys(t)
    ensures Find(t, n) == Some(Fib(n))
  {
    FindIffKey(t, n);
    FindIffStored(t, n, Find(t, n).value);
    MemoizesItems(t);
  }
}

=== FILE: lru_cache.dfy ===
/**
 * A capacity-bounded least-recently-used cache keyed by inclusive index
 * ranges (start, end).
 *
 * The ordered dictionary of the source is modelled as a sequence of entries
 * with pairwise distinct keys: index 0 holds the least recently used entry,
 * the last index the most recently used one.
 */
module LruCache {

  /** A cache key: the inclusive index range (start, end). */
  type Key = (int, int)

  datatype Entry = Entry(key: Key, value: int)

  datatype Cache = Cache(entries: seq<Entry>, capacity: int)

  /** The value `Get` returns when the key is absent. */
  const Miss: int := -1

  /** A fresh cache of the given capacity: it holds nothing, so every lookup misses. */
  function Empty(capacity: int): (r: Cache)
    ensures DistinctKeys(r.entries) && r.capacity == capacity
    ensures capacity >= 0 ==> Valid(r)
  {
    Cache([], capacity)
  }

  /** Every lookup in a fresh cache misses and leaves it empty. */
  lemma EmptyMisses(capacity: int, k: Key)
    ensures Get(Empty(capacity), k) == (Miss, Empty(capacity))
  {
  }

  /** The ordered dictionary never holds a key twice. */
  predicate DistinctKeys(s: seq<Entry>) {
    forall i, j :: 0 <= i < j < |s| ==> s[i].key != s[j].key
  }

  /** The representation invariant: distinct keys, at most `capacity` entries. */
  predicate Valid(c: Cache) {
    DistinctKeys(c.entries) && |c.entries| <= c.capacity
  }

  ghost function KeySet(s: seq<Entry>): set<Key> {
    set e | e in s :: e.key
  }

  /** Does the range `k` contain position `index`? */
  predicate Covers(k: Key, index: int) {
    k.0 <= index <= k.1
  }

  /** `a` is `b` with some entries left out and the rest in their original order. */
  predicate IsSubsequence(a: seq<Entry>, b: seq<Entry>)
    decreases |b|
  {
    if |a| == 0 then true
    else if |b| == 0 then false
    else if a[0] == b[0] then IsSubsequence(a[1..], b[1..])
    else IsSubsequence(a, b[1..])
  }

  /** The entries of `s` that satisfy `keep`, in their original order. */
  function Filter(s: seq<Entry>, keep: Entry -> bool): (r: seq<Entry>)
    ensures forall e :: e in r <==> e in s && keep(e)
    ensures IsSubsequence(r, s)
    ensures |r| <= |s|
    ensures DistinctKeys(s) ==> DistinctKeys(r)
  {
    if |s| == 0 then []
    else if keep(s[0]) then
      var rest := Filter(s[1..], keep);
      assert DistinctKeys(s) ==> forall j :: 0 <= j < |rest| ==> rest[j].key != s[0].key by {
        if DistinctKeys(s) {
          forall j | 0 <= j < |rest| ensures rest[j].key != s[0].key {
            assert rest[j] in s[1..];
            var m :| 0 <= m < |s[1..]| && s[1..][m] == rest[j];
            assert s[m + 1] == rest[j];
          }
        }
      }
      [s[0]] + rest
    else Filter(s[1..], keep)
  }

  /** The filter that keeps every entry except the one for `k`. */
  function KeyIsNot(k: Key): Entry -> bool {
    (e: Entry) => e.key != k
  }

  /** The filter that keeps the entries whose range does not cover `index`. */
  function Survives(index: int): Entry -> bool {
    (e: Entry) => !Covers(e.key, index)
  }

  /** The dictionary with the entry for `k` deleted. */
  function Without(s: seq<Entry>, k: Key): (r: seq<Entry>)
    ensures forall e :: e in r <==> e in s && e.key != k
    ensures k !in KeySet(r)
    ensures IsSubsequence(r, s)
    ensures DistinctKeys(s) ==> DistinctKeys(r)
  {
    Filter(s, KeyIsNot(k))
  }

  /** The position of the entry for `k`, or `|s|` when there is none. */
  function IndexOf(s: seq<Entry>, k: Key): (i: nat)
    ensures i <= |s|
    ensures i < |s| ==> s[i].key == k
    ensures forall j :: 0 <= j < i ==> s[j].key != k
  {
    if |s| == 0 then 0
    else if s[0].key == k then 0
    else 1 + IndexOf(s[1..], k)
  }

  /**
   * Look `k` up. A miss returns the sentinel `Miss` and leaves the cache as it
   * is; a hit returns the stored value and moves the entry to the most
   * recently used end.
   */
  function Get(c: Cache, k: Key): (r: (int, Cache))
    requires DistinctKeys(c.entries)
    ensures k !in KeySet(c.entries) ==> r == (Miss, c)
    ensures k in KeySet(c.entries) ==>
              && Entry(k, r.0) in c.entries
              && r.1 == c.(entries := Without(c.entries, k) + [Entry(k, r.0)])
    ensures forall e :: e in r.1.entries <==> e in c.entries
    ensures |r.1.entries| == |c.entries|
    ensures Valid(c) ==> Valid(r.1)
  {
    var s := c.entries;
    var i := IndexOf(s, k);
    if i == |s| then
      (Miss, c)
    else
      RemoveAtIsWithout(s, i);
      (s[i].value, c.(entries := s[..i] + s[i+1..] + [s[i]]))
  }

  /**
   * Store `v` under `k` as the most recently used entry, then evict the least
   * recently used entry if the cache has grown past its capacity.
   */
  function Put(c: Cache, k: Key, v: int): (r: Cache)
    requires DistinctKeys(c.entries)
    ensures r.capacity == c.capacity
    ensures DistinctKeys(r.entries)
    ensures forall e :: e in r.entries ==> e == Entry(k, v) || e in c.entries
    ensures c.capacity >= 1 ==> Entry(k, v) in r.entries
    ensures Valid(c) ==> Valid(r)
    // a present key is overwritten and refreshed, and nothing is evicted
    ensures k in KeySet(c.entries) && |c.entries| <= c.capacity ==>
              r.entries == Without(c.entries, k) + [Entry(k, v)]
    // a new key is appended; when the cache was full, exactly the front goes
    ensures k !in KeySet(c.entries) && |c.entries| < c.capacity ==>
              r.entries == c.entries + [Entry(k, v)]
    ensures k !in KeySet(c.entries) && 1 <= |c.entries| == c.capacity ==>
              r.entries == c.entries[1..] + [Entry(k, v)]
  {
    var moved := Without(c.entries, k) + [Entry(k, v)];
    RefreshFacts(c.entries, k, v);
    if |moved| > c.capacity then c.(entries := moved[1..]) else c.(entries := moved)
  }

  /** Delete every entry whose range covers `index`. */
  function Invalidate(c: Cache, index: int): (r: Cache)
    ensures r.capacity == c.capacity
    ensures forall e :: e in r.entries <==> e in c.entries && !Covers(e.key, index)
    ensures IsSubsequence(r.entries, c.entries)
    ensures DistinctKeys(c.entries) ==> DistinctKeys(r.entries)
    ensures Valid(c) ==> Valid(r)
  {
    c.(entries := Filter(c.entries, Survives(index)))
  }

  /**
   * Deleting `k` removes exactly one entry when `k` is present and none
   * otherwise; appending the fresh entry then keeps the keys distinct.
   */
  lemma RefreshFacts(s: seq<Entry>, k: Key, v: int)
    requires DistinctKeys(s)
    ensures var m := Without(s, k) + [Entry(k, v)];
      && |m| >= 1 && m[|m| - 1] == Entry(k, v)
      && DistinctKeys(m) && DistinctKeys(m[1..])
      && (k in KeySet(s) ==> |m| == |s|)
      && (k !in KeySet(s) ==> m == s + [Entry(k, v)])
  {
    var w := Without(s, k);
    var m := w + [Entry(k, v)];
    var i := IndexOf(s, k);
    if i < |s| {
      RemoveAtIsWithout(s, i);
      assert |w| == |s| - 1;
    } else {
      FilterKeepsAll(s, KeyIsNot(k));
    }
    assert DistinctKeys(m) by {
      forall a, b | 0 <= a < b < |m| ensures m[a].key != m[b].key {
        if b == |m| - 1 {
          assert m[a] == w[a];
        }
      }
    }
    assert DistinctKeys(m[1..]) by {
      forall a, b | 0 <= a < b < |m[1..]| ensures m[1..][a].key != m[1..][b].key {
        assert m[1..][a] == m[a + 1] && m[1..][b] == m[b + 1];
      }
    }
  }

  lemma {:induction false} FilterKeepsAll(s: seq<Entry>, keep: Entry -> bool)
    requires forall e :: e in s ==> keep(e)
    ensures Filter(s, keep) == s
  {
    if |s| > 0 {
      assert keep(s[0]);
      FilterKeepsAll(s[1..], keep);
    }
  }

  /** Cutting position `i > 0` out of `s` keeps the head and cuts `i - 1` out of the tail. */
  lemma CutAfterHead<T>(s: seq<T>, i: int)
    requires 0 < i < |s|
    ensures s[..i] + s[i+1..] == [s[0]] + (s[1..][..i-1] + s[1..][i..])
  {
    assert s[..i] == [s[0]] + s[1..][..i-1];
    assert s[i+1..] == s[1..][i..];
  }

  /** When exactly the entry at position `i` fails `keep`, filtering cuts it out. */
  lemma {:induction false} FilterDropsOne(s: seq<Entry>, keep: Entry -> bool, i: int)
    requires 0 <= i < |s| && !keep(s[i])
    requires forall j :: 0 <= j < |s| && j != i ==> keep(s[j])
    ensures Filter(s, keep) == s[..i] + s[i+1..]
  {
    var t := s[1..];
    if i == 0 {
      forall e | e in t ensures keep(e) {
        var m :| 0 <= m < |t| && t[m] == e;
        assert s[m + 1] == e;
      }
      FilterKeepsAll(t, keep);
      assert s[..0] + s[1..] == t;
    } else {
      assert keep(s[0]);
      assert t[i - 1] == s[i];
      forall j | 0 <= j < |t| && j != i - 1 ensures keep(t[j]) {
        assert t[j] == s[j + 1];
      }
      FilterDropsOne(t, keep, i - 1);
      CutAfterHead(s, i);
    }
  }

  /** Cutting the entry at position `i` out is deleting its key. */
  lemma RemoveAtIsWithout(s: seq<Entry>, i: int)
    requires DistinctKeys(s) && 0 <= i < |s|
    ensures s[..i] + s[i+1..] == Without(s, s[i].key)
  {
    var k := s[i].key;
    forall j | 0 <= j < |s| && j != i ensures KeyIsNot(k)(s[j]) {
      if j < i {
        assert s[j].key != s[i].key;
      } else {
        assert s[i].key != s[j].key;
      }
    }
    FilterDropsOne(s, KeyIsNot(k), i);
  }

  /** Two entries for one key in a dictionary hold the same value. */
  lemma EntryIsUnique(s: seq<Entry>, k: Key, v: int, w: int)
    requires DistinctKeys(s) && Entry(k, v) in s && Entry(k, w) in s
    ensures v == w
  {
    var i :| 0 <= i < |s| && s[i] == Entry(k, v);
    var j :| 0 <= j < |s| && s[j] == Entry(k, w);
    assert i == j;
  }

  /** A hit returns the stored value and keeps the size. */
  lemma GetHit(c: Cache, k: Key, v: int)
    requires DistinctKeys(c.entries) && Entry(k, v) in c.entries
    ensures Get(c, k).0 == v
    ensures |Get(c, k).1.entries| == |c.entries|
    ensures Get(c, k).1.entries[|c.entries| - 1] == Entry(k, v)
  {
    var i := IndexOf(c.entries, k);
    assert k in KeySet(c.entries);
    EntryIsUnique(c.entries, k, v, Get(c, k).0);
    RemoveAtIsWithout(c.entries, i);
  }

  /** Reading a key right after writing it returns the written value. */
  lemma PutThenGet(c: Cache, k: Key, v: int)
    requires DistinctKeys(c.entries) && c.capacity >= 1
    ensures Get(Put(c, k, v), k).0 == v
  {
    GetHit(Put(c, k, v), k, v);
  }

  /** A second invalidation of the same position changes nothing. */
  lemma InvalidateIdempotent(c: Cache, index: int)
    ensures Invalidate(Invalidate(c, index), index) == Invalidate(c, index)
  {
    var once := Invalidate(c, index);
    FilterKeepsAll(once.entries, Survives(index));
  }

  /** Two writes into an empty cache of capacity 2 fill it in write order. */
  lemma FillStep()
    ensures Put(Put(Empty(2), (0, 5), 10), (6, 10), 20)
            == Cache([Entry((0, 5), 10), Entry((6, 10), 20)], 2)
  {
    var a := Put(Empty(2), (0, 5), 10);
    assert (0, 5) !in KeySet([]);
    assert a.entries == [Entry((0, 5), 10)];
    assert (6, 10) !in KeySet(a.entries);
  }

  /** Reading the older of two entries makes it the most recent one. */
  lemma RefreshStep()
    ensures Get(Cache([Entry((0, 5), 10), Entry((6, 10), 20)], 2), (0, 5))
            == (10, Cache([Entry((6, 10), 20), Entry((0, 5), 10)], 2))
  {
    var c := Cache([Entry((0, 5), 10), Entry((6, 10), 20)], 2);
    assert (0, 5) in KeySet(c.entries);
    assert Without(c.entries, (0, 5)) == [Entry((6, 10), 20)];
    GetHit(c, (0, 5), 10);
    var r := Get(c, (0, 5));
    assert r.1.entries == [Entry((6, 10), 20)] + [Entry((0, 5), 10)];
    assert r.1.capacity == 2;
    assert r.0 == 10;
    assert r.1 == Cache([Entry((6, 10), 20), Entry((0, 5), 10)], 2);
  }

  /** A third key evicts the front entry, which then reads as a miss. */
  lemma EvictStep()
    ensures Put(Cache([Entry((6, 10), 20), Entry((0, 5), 10)], 2), (11, 15), 30)
            == Cache([Entry((0, 5), 10), Entry((11, 15), 30)], 2)
    ensures Get(Cache([Entry((0, 5), 10), Entry((11, 15), 30)], 2), (6, 10)).0 == Miss
  {
    var c := Cache([Entry((6, 10), 20), Entry((0, 5), 10)], 2);
    assert (11, 15) !in KeySet(c.entries);
    assert (6, 10) !in KeySet([Entry((0, 5), 10), Entry((11, 15), 30)]);
  }

  /**
   * Capacity 2: write (0,5) and (6,10), read (0,5), write (11,15). The read
   * refreshed (0,5), so (6,10) is the one evicted.
   */
  lemma EvictionExample()
    ensures var c0 := Put(Put(Empty(2), (0, 5), 10), (6, 10), 20);
            var (v, c1) := Get(c0, (0, 5));
            var c2 := Put(c1, (11, 15), 30);
            && v == 10
            && c2.entries == [Entry((0, 5), 10), Entry((11, 15), 30)]
            && Get(c2, (6, 10)).0 == Miss
  {
    FillStep();
    RefreshStep();
    EvictStep();
  }
}

=== FILE: range_sum.dfy ===
/**
 * Range sums over an integer array, with and without a cache of previously
 * computed ranges.
 *
 * The processor pairs the array with an LRU cache keyed by (L, R). Its
 * correctness rests on one invariant, `Coherent`: every cached range still
 * holds the sum of the array elements it covers.
 */
module RangeSum {
  import LruCache

  datatype Processor = Processor(data: seq<int>, cache: LruCache.Cache)

  /** The sum of `a[lo]`, ..., `a[hi - 1]`, accumulated from the left as a running total. */
  function Sum(a: seq<int>, lo: int, hi: int): int
    requires 0 <= lo <= hi <= |a|
    decreases hi - lo
  {
    if lo == hi then 0 else Sum(a, lo, hi - 1) + a[hi - 1]
  }

  /** The inclusive range [L, R] lies inside `a`. */
  predicate InRange(a: seq<int>, L: int, R: int) {
    0 <= L <= R < |a|
  }

  /** Entry `e` caches a range of `a` together with that range's current sum. */
  ghost predicate Holds(a: seq<int>, e: LruCache.Entry) {
    InRange(a, e.key.0, e.key.1) && e.value == Sum(a, e.key.0, e.key.1 + 1)
  }

  /** Every cached range holds its current sum. */
  ghost predicate Coherent(p: Processor) {
    forall e :: e in p.cache.entries ==> Holds(p.data, e)
  }

  /** A processor over `a` with an empty cache of the given capacity. */
  function NewProcessor(a: seq<int>, capacity: int): (p: Processor)
    ensures Coherent(p)
    ensures capacity >= 0 ==> LruCache.Valid(p.cache)
  {
    Processor(a, LruCache.Empty(capacity))
  }

  /** Sum the inclusive range [L, R] of `a` element by element. */
  method RangeSumNoCache(a: seq<int>, L: int, R: int) returns (total: int)
    requires InRange(a, L, R)
    ensures total == Sum(a, L, R + 1)
  {
    total := 0;
    var j := L;
    while j <= R
      invariant L <= j <= R + 1
      invariant total == Sum(a, L, j)
    {
      total := total + a[j];
      j := j + 1;
    }
  }

  /** Write `v` at position `i`. */
  function UpdateNoCache(a: seq<int>, i: int, v: int): (r: seq<int>)
    requires 0 <= i < |a|
    ensures |r| == |a| && r[i] == v
    ensures forall j :: 0 <= j < |a| && j != i ==> r[j] == a[j]
  {
    a[i := v]
  }

  /**
   * Answer the sum of [L, R]. A cache hit is returned as is; a miss (the
   * sentinel, which a cached sum of -1 also looks like) recomputes the sum and
   * stores it under (L, R).
   */
  function RangeSumWithCache(p: Processor, L: int, R: int): (r: (int, Processor))
    requires InRange(p.data, L, R)
    requires LruCache.DistinctKeys(p.cache.entries)
    ensures r.1.data == p.data
    ensures r.1.cache.capacity == p.cache.capacity
    ensures LruCache.DistinctKeys(r.1.cache.entries)
    ensures LruCache.Valid(p.cache) ==> LruCache.Valid(r.1.cache)
    ensures Coherent(p) ==> r.0 == Sum(p.data, L, R + 1) && Coherent(r.1)
    ensures p.cache.capacity >= 1 ==> LruCache.Entry((L, R), r.0) in r.1.cache.entries
  {
    var (cached, c1) := LruCache.Get(p.cache, (L, R));
    assert LruCache.DistinctKeys(c1.entries) && c1.capacity == p.cache.capacity;
    assert LruCache.Valid(p.cache) ==> LruCache.Valid(c1);
    if cached != LruCache.Miss then
      HitIsCurrent(p, L, R);
      assert LruCache.Entry((L, R), cached) in c1.entries;
      (cached, p.(cache := c1))
    else
      var result := Sum(p.data, L, R + 1);
      var c2 := LruCache.Put(c1, (L, R), result);
      StoreKeepsCoherent(p, c2, LruCache.Entry((L, R), result));
      (result, p.(cache := c2))
  }

  /** On a coherent processor, a cache hit is the current sum and the refreshed cache stays coherent. */
  lemma HitIsCurrent(p: Processor, L: int, R: int)
    requires InRange(p.data, L, R)
    requires LruCache.DistinctKeys(p.cache.entries)
    requires LruCache.Get(p.cache, (L, R)).0 != LruCache.Miss
    ensures Coherent(p) ==>
              var (cached, c1) := LruCache.Get(p.cache, (L, R));
              cached == Sum(p.data, L, R + 1) && Coherent(p.(cache := c1))
  {
    var (cached, c1) := LruCache.Get(p.cache, (L, R));
    if Coherent(p) {
      assert (L, R) in LruCache.KeySet(p.cache.entries);
      assert Holds(p.data, LruCache.Entry((L, R), cached));
      StoreKeepsCoherent(p, c1, LruCache.Entry((L, R), cached));
    }
  }

  /** A cache holding only old entries and one entry that holds its sum stays coherent. */
  lemma StoreKeepsCoherent(p: Processor, c: LruCache.Cache, stored: LruCache.Entry)
    requires Holds(p.data, stored)
    requires forall e :: e in c.entries ==> e == stored || e in p.cache.entries
    ensures Coherent(p) ==> Coherent(p.(cache := c))
  {
  }

  /** Write `v` at position `i` and drop every cached range that covers `i`. */
  function UpdateWithCache(p: Processor, i: int, v: int): (r: Processor)
    requires 0 <= i < |p.data|
    ensures r.data == UpdateNoCache(p.data, i, v)
    ensures forall e :: e in r.cache.entries <==> e in p.cache.entries && !LruCache.Covers(e.key, i)
    ensures LruCache.DistinctKeys(p.cache.entries) ==> LruCache.DistinctKeys(r.cache.entries)
    ensures LruCache.Valid(p.cache) ==> LruCache.Valid(r.cache)
    ensures Coherent(p) ==> Coherent(r)
  {
    var r := Processor(UpdateNoCache(p.data, i, v), LruCache.Invalidate(p.cache, i));
    assert Coherent(p) ==> Coherent(r) by {
      if Coherent(p) {
        forall e | e in r.cache.entries ensures Holds(r.data, e) {
          SumAvoidsUpdate(p.data, i, v, e.key.0, e.key.1 + 1);
        }
      }
    }
    r
  }

  /** A range that does not cover `i` sums the same before and after writing `i`. */
  lemma {:induction false} SumAvoidsUpdate(a: seq<int>, i: int, v: int, lo: int, hi: int)
    requires 0 <= i < |a| && 0 <= lo <= hi <= |a| && !(lo <= i < hi)
    ensures Sum(a[i := v], lo, hi) == Sum(a, lo, hi)
    decreases hi - lo
  {
    if lo < hi {
      SumAvoidsUpdate(a, i, v, lo, hi - 1);
    }
  }

  /** One request of a workload: a range-sum query or a point update. */
  datatype Query = RangeQuery(lo: int, hi: int) | PointUpdate(index: int, value: int)

  /** The request addresses positions of an array of length `n`. */
  predicate QueryFits(q: Query, n: int) {
    match q
    case RangeQuery(lo, hi) => 0 <= lo <= hi < n
    case PointUpdate(index, _) => 0 <= index < n
  }

  predicate Fits(qs: seq<Query>, n: int) {
    forall j :: 0 <= j < |qs| ==> QueryFits(qs[j], n)
  }

  /**
   * One request served straight from the array: its answers (the sum for a
   * range query, none for an update) and the array afterwards.
   */
  function PlainStep(a: seq<int>, q: Query): (r: (seq<int>, seq<int>))
    requires QueryFits(q, |a|)
    ensures |r.1| == |a|
  {
    match q
    case RangeQuery(lo, hi) => ([Sum(a, lo, hi + 1)], a)
    case PointUpdate(index, value) => ([], UpdateNoCache(a, index, value))
  }

  /** One request served by the cached processor: its answers and the processor afterwards. */
  function CachedStep(p: Processor, q: Query): (r: (seq<int>, Processor))
    requires QueryFits(q, |p.data|) && LruCache.DistinctKeys(p.cache.entries)
    ensures |r.1.data| == |p.data| && LruCache.DistinctKeys(r.1.cache.entries)
  {
    match q
    case RangeQuery(lo, hi) =>
      var (answer, p') := RangeSumWithCache(p, lo, hi);
      ([answer], p')
    case PointUpdate(index, value) =>
      ([], UpdateWithCache(p, index, value))
  }

  /**
   * On a coherent processor, a cached step answers and changes the array
   * exactly as the plain step does, and the processor stays coherent.
   */
  lemma CachedStepAgrees(p: Processor, q: Query)
    requires QueryFits(q, |p.data|) && LruCache.DistinctKeys(p.cache.entries)
    requires Coherent(p)
    ensures CachedStep(p, q).0 == PlainStep(p.data, q).0
    ensures CachedStep(p, q).1.data == PlainStep(p.data, q).1
    ensures Coherent(CachedStep(p, q).1)
  {
  }

  /** The answers to the range queries of `qs`, served straight from the array. */
  function RunPlain(a: seq<int>, qs: seq<Query>): seq<int>
    requires Fits(qs, |a|)
    decreases |qs|
  {
    if |qs| == 0 then []
    else
      assert QueryFits(qs[0], |a|);
      var (out, a') := PlainStep(a, qs[0]);
      out + RunPlain(a', qs[1..])
  }

  /** The answers to the range queries of `qs`, served by the cached processor. */
  function RunCached(p: Processor, qs: seq<Query>): seq<int>
    requires Fits(qs, |p.data|) && LruCache.DistinctKeys(p.cache.entries)
    decreases |qs|
  {
    if |qs| == 0 then []
    else
      assert QueryFits(qs[0], |p.data|);
      var (out, p') := CachedStep(p, qs[0]);
      out + RunCached(p', qs[1..])
  }

  /** Over any workload, the cache never changes an answer. */
  lemma {:induction false} CachedMatchesPlain(p: Processor, qs: seq<Query>)
    requires Fits(qs, |p.data|) && LruCache.DistinctKeys(p.cache.entries)
    requires Coherent(p)
    ensures RunCached(p, qs) == RunPlain(p.data, qs)
    decreases |qs|
  {
    if |qs| > 0 {
      assert QueryFits(qs[0], |p.data|);
      var (out, p') := CachedStep(p, qs[0]);
      CachedStepAgrees(p, qs[0]);
      CachedMatchesPlain(p', qs[1..]);
    }
  }

  /**
   * Over [1, 2, 3, 4, 5]: the sum of [1, 3] is 9; after writing 100 at
   * position 2 the cached 9 is dropped and the same query answers 106.
   */
  lemma UpdateExample()
    ensures var p := NewProcessor([1, 2, 3, 4, 5], 2);
            var (s1, p1) := RangeSumWithCache(p, 1, 3);
            var p2 := UpdateWithCache(p1, 2, 100);
            var (s2, p3) := RangeSumWithCache(p2, 1, 3);
            s1 == 9 && s2 == 106
  {
    var a := [1, 2, 3, 4, 5];
    assert Sum(a, 1, 2) == 2 && Sum(a, 1, 3) == 5 && Sum(a, 1, 4) == 9;
    var (s1, p1) := RangeSumWithCache(NewProcessor(a, 2), 1, 3);
    var p2 := UpdateWithCache(p1, 2, 100);
    var b := [1, 2, 100, 4, 5];
    assert p2.data == b;
    assert Sum(b, 1, 2) == 2 && Sum(b, 1, 3) == 102 && Sum(b, 1, 4) == 106;
  }
}

=== FILE: splay_tree.dfy ===
/**
 * A splay tree used as an unbounded key/value store.
 *
 * Nodes are owned by exactly one parent and `Splay` hands back the new
 * subtree root, so the tree is an algebraic datatype and every operation a
 * pure function returning the new root. A plain binary-search lookup, `Find`,
 * is the reference for what the tree stores.
 */
module SplayTree {
  import opened Wrappers

  datatype Item = Item(key: int, value: int)

  datatype Tree = Leaf | Node(left: Tree, key: int, value: int, right: Tree)

  /** The items of `t` from left to right. */
  function InOrder(t: Tree): seq<Item> {
    match t
    case Leaf => []
    case Node(l, k, v, r) => InOrder(l) + [Item(k, v)] + InOrder(r)
  }

  ghost function Keys(t: Tree): set<int> {
    match t
    case Leaf => {}
    case Node(l, k, _, r) => Keys(l) + {k} + Keys(r)
  }

  /** Strict search-tree order: left keys < node key < right keys, at every node. */
  ghost predicate Bst(t: Tree) {
    match t
    case Leaf => true
    case Node(l, k, _, r) =>
      && Bst(l) && Bst(r)
      && (forall x :: x in Keys(l) ==> x < k)
      && (forall x :: x in Keys(r) ==> k < x)
  }

  /** Plain binary-search lookup, without restructuring. */
  function Find(t: Tree, k: int): Option<int> {
    match t
    case Leaf => None
    case Node(l, x, v, r) =>
      if k == x then Some(v) else if k < x then Find(l, k) else Find(r, k)
  }

  /** The left child rises; `t` becomes its right child. */
  function RotateRight(t: Tree): (r: Tree)
    requires t.Node? && t.left.Node?
    ensures r.Node? && r.right.Node?
    ensures InOrder(r) == InOrder(t)
    ensures Keys(r) == Keys(t)
    ensures Bst(t) ==> Bst(r)
  {
    var Node(Node(a, yk, yv, b), xk, xv, c) := t;
    assert Bst(t) ==> Bst(t.left);
    Node(a, yk, yv, Node(b, xk, xv, c))
  }

  /** The right child rises; `t` becomes its left child. */
  function RotateLeft(t: Tree): (r: Tree)
    requires t.Node? && t.right.Node?
    ensures r.Node? && r.left.Node?
    ensures InOrder(r) == InOrder(t)
    ensures Keys(r) == Keys(t)
    ensures Bst(t) ==> Bst(r)
  {
    var Node(a, xk, xv, Node(b, yk, yv, c)) := t;
    assert Bst(t) ==> Bst(t.right);
    Node(Node(a, xk, xv, b), yk, yv, c)
  }

  /**
   * Bring `k`, or the last node on its search path, to the root by the
   * zig-zig and zig-zag steps of recursive splaying.
   */
  function Splay(t: Tree, k: int): (r: Tree)
    ensures InOrder(r) == InOrder(t)
    ensures Keys(r) == Keys(t)
    ensures r.Node? <==> t.Node?
    ensures Bst(t) ==> Bst(r)
  {
    match t
    case Leaf => Leaf
    case Node(l, x, v, rt) =>
      if k == x then t
      else if k < x then
        match l
        case Leaf => t
        case Node(a, lk, lv, b) =>
          assert Bst(t) ==> Bst(l);
          if k < lk then
            // zig-zig: splay the left-left grandchild, then rotate right, and again if the splayed subtree is not empty
            var a' := Splay(a, k);
            var n1 := Node(Node(a', lk, lv, b), x, v, rt);
            assert InOrder(n1) == InOrder(t);
            assert Keys(n1.left) == Keys(l);
            assert Bst(t) ==> Bst(n1);
            var t1 := RotateRight(n1);
            if a'.Node? then RotateRight(t1) else t1
          else if lk < k then
            // zig-zag: splay the left-right grandchild, lift it, then rotate right
            var b' := Splay(b, k);
            var l0 := Node(a, lk, lv, b');
            assert Bst(t) ==> Bst(l0);
            var l1 := if b'.Node? then RotateLeft(l0) else l0;
            var n1 := Node(l1, x, v, rt);
            assert InOrder(n1) == InOrder(t);
            assert Keys(l1) == Keys(l0) == Keys(l);
            assert Bst(t) ==> Bst(n1);
            RotateRight(n1)
          else
            RotateRight(t)
      else
        match rt
        case Leaf => t
        case Node(b, rk, rv, c) =>
          assert Bst(t) ==> Bst(rt);
          if rk < k then
            // zag-zag: splay the right-right grandchild, then rotate left, and again if the splayed subtree is not empty
            var c' := Splay(c, k);
            var n1 := Node(l, x, v, Node(b, rk, rv, c'));
            assert InOrder(n1) == InOrder(t);
            assert Keys(n1.right) == Keys(rt);
            assert Bst(t) ==> Bst(n1);
            var t1 := RotateLeft(n1);
            if c'.Node? then RotateLeft(t1) else t1
          else if k < rk then
            // zag-zig: splay the right-left grandchild, lift it, then rotate left
            var b' := Splay(b, k);
            var r0 := Node(b', rk, rv, c);
            assert Bst(t) ==> Bst(r0);
            var r1 := if b'.Node? then RotateRight(r0) else r0;
            var n1 := Node(l, x, v, r1);
            assert InOrder(n1) == InOrder(t);
            assert Keys(r1) == Keys(r0) == Keys(rt);
            assert Bst(t) ==> Bst(n1);
            RotateLeft(n1)
          else
            RotateLeft(t)
  }

  /**
   * Splay on `k`, then report the root's value if the root holds `k`. The
   * tree is restructured on a miss as well.
   */
  function Get(t: Tree, k: int): (r: (Option<int>, Tree))
    ensures InOrder(r.1) == InOrder(t) && Keys(r.1) == Keys(t)
    ensures Bst(t) ==> Bst(r.1)
    ensures r.0.Some? ==> r.1.Node? && r.1.key == k && Item(k, r.0.value) in InOrder(t)
  {
    var s := Splay(t, k);
    if s.Node? && s.key == k then (Some(s.value), s) else (None, s)
  }

  /**
   * Splay on `k`; unless the root then holds `k` (the first write wins), make a
   * new node for `k` the root, with the old root on the side away from `k`.
   */
  function Insert(t: Tree, k: int, v: int): (r: Tree)
    ensures r.Node?
    ensures Keys(r) == Keys(t) + {k}
    ensures forall it :: it in InOrder(r) ==> it in InOrder(t) || it == Item(k, v)
    ensures forall it :: it in InOrder(t) ==> it in InOrder(r)
    ensures k !in Keys(t) ==> Item(k, v) in InOrder(r)
  {
    if t.Leaf? then Node(Leaf, k, v, Leaf)
    else
      var s := Splay(t, k);
      var Node(a, sk, sv, b) := s;
      if sk == k then s
      else if k < sk then
        var r := Node(a, k, v, Node(Leaf, sk, sv, b));
        assert InOrder(r.right) == [Item(sk, sv)] + InOrder(b);
        assert Keys(r.right) == {sk} + Keys(b);
        assert InOrder(r) == InOrder(a) + [Item(k, v)] + [Item(sk, sv)] + InOrder(b);
        r
      else
        var r := Node(Node(a, sk, sv, Leaf), k, v, b);
        assert InOrder(r.left) == InOrder(a) + [Item(sk, sv)];
        assert Keys(r.left) == Keys(a) + {sk};
        assert InOrder(r) == InOrder(a) + [Item(sk, sv)] + [Item(k, v)] + InOrder(b);
        r
  }

  /**
   * After splaying a non-empty search tree on `k`, no key lies strictly
   * between the root's key and `k`, nor equals `k` on the far side of the
   * root: the root is `k` itself or its predecessor or successor.
   */
  lemma {:induction false} SplayBringsClosest(t: Tree, k: int)
    requires Bst(t) && t.Node?
    ensures var r := Splay(t, k);
      r.Node? && forall x :: x in Keys(t) ==> !(k <= x < r.key) && !(r.key < x <= k)
    decreases t, 1
  {
    if k < t.key {
      SplayLeftClosest(t, k);
    } else if t.key < k {
      SplayRightClosest(t, k);
    }
  }

  /** `SplayBringsClosest` when `k` lies left of the root. */
  lemma {:induction false} SplayLeftClosest(t: Tree, k: int)
    requires Bst(t) && t.Node? && k < t.key
    ensures var r := Splay(t, k);
      r.Node? && forall x :: x in Keys(t) ==> !(k <= x < r.key) && !(r.key < x <= k)
    decreases t, 0
  {
    var r := Splay(t, k);
    var Node(l, x, v, rt) := t;
    match l
    case Leaf =>
    case Node(a, lk, lv, b) =>
      assert Keys(t) == Keys(a) + {lk} + Keys(b) + {x} + Keys(rt);
      assert Bst(l);
      if k < lk {
        var a' := Splay(a, k);
        if a'.Node? {
          SplayBringsClosest(a, k);
          assert r.key == a'.key && r.key in Keys(a);
        } else {
          assert r.key == lk;
        }
        forall y | y in Keys(t) ensures !(k <= y < r.key) && !(r.key < y <= k) {
          if y !in Keys(a) {
            assert lk <= y;
          }
        }
      } else if lk < k {
        var b' := Splay(b, k);
        if b'.Node? {
          SplayBringsClosest(b, k);
          assert r.key == b'.key && r.key in Keys(b);
        } else {
          assert r.key == lk;
        }
        forall y | y in Keys(t) ensures !(k <= y < r.key) && !(r.key < y <= k) {
          if y in Keys(a) || y == lk {
            assert y <= lk;
          } else if y !in Keys(b) {
            assert x <= y;
          }
        }
      }
  }

  /** `SplayBringsClosest` when `k` lies right of the root. */
  lemma {:induction false} SplayRightClosest(t: Tree, k: int)
    requires Bst(t) && t.Node? && t.key < k
    ensures var r := Splay(t, k);
      r.Node? && forall x :: x in Keys(t) ==> !(k <= x < r.key) && !(r.key < x <= k)
    decreases t, 0
  {
    var r := Splay(t, k);
    var Node(l, x, v, rt) := t;
    match rt
    case Leaf =>
    case Node(b, rk, rv, c) =>
      assert Keys(t) == Keys(l) + {x} + Keys(b) + {rk} + Keys(c);
      if rk < k {
        var c' := Splay(c, k);
        if c'.Node? {
          SplayBringsClosest(c, k);
          assert r.key == c'.key;
        } else {
          assert r.key == rk;
        }
      } else if k < rk {
        var b' := Splay(b, k);
        if b'.Node? {
          SplayBringsClosest(b, k);
          assert r.key == b'.key;
        } else {
          assert r.key == rk;
        }
      }
  }

  /** A key present in a search tree ends up at the root. */
  lemma SplayFindsPresentKey(t: Tree, k: int)
    requires Bst(t) && k in Keys(t)
    ensures Splay(t, k).Node? && Splay(t, k).key == k
  {
    SplayBringsClosest(t, k);
  }

  /** Every item sits under its own key. */
  lemma {:induction false} ItemKeyIsKey(t: Tree, it: Item)
    requires it in InOrder(t)
    ensures it.key in Keys(t)
  {
    match t
    case Node(l, k, v, r) =>
      if it in InOrder(l) {
        ItemKeyIsKey(l, it);
      } else if it in InOrder(r) {
        ItemKeyIsKey(r, it);
      }
  }

  /** Every key is stored with some value. */
  lemma {:induction false} KeyHasItem(t: Tree, x: int)
    requires x in Keys(t)
    ensures exists v :: Item(x, v) in InOrder(t)
  {
    match t
    case Node(l, k, v, r) =>
      if x in Keys(l) {
        KeyHasItem(l, x);
      } else if x in Keys(r) {
        KeyHasItem(r, x);
      } else {
        assert Item(x, v) in InOrder(t);
      }
  }

  /** Keys strictly increase from left to right. */
  ghost predicate Ascending(s: seq<Item>) {
    forall i, j :: 0 <= i < j < |s| ==> s[i].key < s[j].key
  }

  /** Ascending around a middle item: both sides ascend and the middle separates them. */
  lemma AscendingAround(a: seq<Item>, m: Item, b: seq<Item>)
    ensures Ascending(a + [m] + b) <==>
      && Ascending(a) && Ascending(b)
      && (forall i :: 0 <= i < |a| ==> a[i].key < m.key)
      && (forall j :: 0 <= j < |b| ==> m.key < b[j].key)
  {
    if Ascending(a + [m] + b) {
      AscendingSplits(a, m, b);
    }
    if Ascending(a) && Ascending(b)
       && (forall i :: 0 <= i < |a| ==> a[i].key < m.key)
       && (forall j :: 0 <= j < |b| ==> m.key < b[j].key)
    {
      AscendingJoins(a, m, b);
    }
  }

  /** An ascending sequence splits into ascending sides separated by the middle item. */
  lemma AscendingSplits(a: seq<Item>, m: Item, b: seq<Item>)
    requires Ascending(a + [m] + b)
    ensures Ascending(a) && Ascending(b)
    ensures forall i :: 0 <= i < |a| ==> a[i].key < m.key
    ensures forall j :: 0 <= j < |b| ==> m.key < b[j].key
  {
    var s := a + [m] + b;
    forall i, j | 0 <= i < j < |a| ensures a[i].key < a[j].key {
      assert s[i] == a[i] && s[j] == a[j];
    }
    forall i | 0 <= i < |a| ensures a[i].key < m.key {
      assert s[i] == a[i] && s[|a|] == m;
    }
    forall i, j | 0 <= i < j < |b| ensures b[i].key < b[j].key {
      assert s[|a| + 1 + i] == b[i] && s[|a| + 1 + j] == b[j];
    }
    forall j | 0 <= j < |b| ensures m.key < b[j].key {
      assert s[|a|] == m && s[|a| + 1 + j] == b[j];
    }
  }

  /** Ascending sides separated by a middle item join into an ascending sequence. */
  lemma AscendingJoins(a: seq<Item>, m: Item, b: seq<Item>)
    requires Ascending(a) && Ascending(b)
    requires forall i :: 0 <= i < |a| ==> a[i].key < m.key
    requires forall j :: 0 <= j < |b| ==> m.key < b[j].key
    ensures Ascending(a + [m] + b)
  {
    var s := a + [m] + b;
    forall i, j | 0 <= i < j < |s| ensures s[i].key < s[j].key {
      if i < |a| {
        assert s[i] == a[i];
      } else if i == |a| {
        assert s[i] == m;
      } else {
        assert s[i] == b[i - |a| - 1];
      }
      if j < |a| {
        assert s[j] == a[j];
      } else if j == |a| {
        assert s[j] == m;
      } else {
        assert s[j] == b[j - |a| - 1];
      }
    }
  }

  /** An upper bound on the keys of a tree is one on its in-order items. */
  lemma {:induction false} BelowIffItemsBelow(t: Tree, k: int)
    ensures (forall x :: x in Keys(t) ==> x < k) <==>
            (forall i :: 0 <= i < |InOrder(t)| ==> InOrder(t)[i].key < k)
  {
    if forall x :: x in Keys(t) ==> x < k {
      forall i | 0 <= i < |InOrder(t)| ensures InOrder(t)[i].key < k {
        ItemKeyIsKey(t, InOrder(t)[i]);
      }
    } else {
      var x :| x in Keys(t) && k <= x;
      var i := ItemAtKey(t, x);
    }
  }

  /** A lower bound on the keys of a tree is one on its in-order items. */
  lemma {:induction false} AboveIffItemsAbove(t: Tree, k: int)
    ensures (forall x :: x in Keys(t) ==> k < x) <==>
            (forall i :: 0 <= i < |InOrder(t)| ==> k < InOrder(t)[i].key)
  {
    if forall x :: x in Keys(t) ==> k < x {
      forall i | 0 <= i < |InOrder(t)| ensures k < InOrder(t)[i].key {
        ItemKeyIsKey(t, InOrder(t)[i]);
      }
    } else {
      var x :| x in Keys(t) && x <= k;
      var i := ItemAtKey(t, x);
    }
  }

  /** Every key sits at some position of the in-order sequence. */
  lemma ItemAtKey(t: Tree, x: int) returns (i: int)
    requires x in Keys(t)
    ensures 0 <= i < |InOrder(t)| && InOrder(t)[i].key == x
  {
    KeyHasItem(t, x);
    var w :| Item(x, w) in InOrder(t);
    i :| 0 <= i < |InOrder(t)| && InOrder(t)[i] == Item(x, w);
  }

  /**
   * Search-tree order is exactly an ascending in-order sequence, so whatever
   * keeps the in-order sequence keeps search-tree order.
   */
  lemma {:induction false} BstIffAscending(t: Tree)
    ensures Bst(t) <==> Ascending(InOrder(t))
  {
    match t
    case Leaf =>
    case Node(l, k, v, r) =>
      BstIffAscending(l);
      BstIffAscending(r);
      AscendingAround(InOrder(l), Item(k, v), InOrder(r));
      BelowIffItemsBelow(l, k);
      AboveIffItemsAbove(r, k);
      assert InOrder(t) == InOrder(l) + [Item(k, v)] + InOrder(r);
      if Bst(t) {
        assert Ascending(InOrder(t));
      }
      if Ascending(InOrder(t)) {
        assert Bst(t);
      }
  }

  /** In a search tree, the lookup finds exactly the stored items. */
  lemma {:induction false} FindIffStored(t: Tree, k: int, v: int)
    requires Bst(t)
    ensures Find(t, k) == Some(v) <==> Item(k, v) in InOrder(t)
  {
    match t
    case Leaf =>
    case Node(l, x, w, r) =>
      FindIffStored(l, k, v);
      FindIffStored(r, k, v);
      if Item(k, v) in InOrder(l) {
        ItemKeyIsKey(l, Item(k, v));
      } else if Item(k, v) in InOrder(r) {
        ItemKeyIsKey(r, Item(k, v));
      }
  }

  /** In a search tree, the lookup succeeds exactly for the stored keys. */
  lemma {:induction false} FindIffKey(t: Tree, k: int)
    requires Bst(t)
    ensures Find(t, k).Some? <==> k in Keys(t)
  {
    match t
    case Leaf =>
    case Node(l, x, w, r) =>
      FindIffKey(l, k);
      FindIffKey(r, k);
  }

  /** Two search trees with the same items for `k` answer a lookup of `k` alike. */
  lemma SameItemsSameFind(t1: Tree, t2: Tree, k: int)
    requires Bst(t1) && Bst(t2)
    requires forall v :: Item(k, v) in InOrder(t1) <==> Item(k, v) in InOrder(t2)
    ensures Find(t1, k) == Find(t2, k)
  {
    if Find(t1, k).Some? {
      FindIffStored(t1, k, Find(t1, k).value);
      FindIffStored(t2, k, Find(t1, k).value);
    } else if Find(t2, k).Some? {
      FindIffStored(t1, k, Find(t2, k).value);
      FindIffStored(t2, k, Find(t2, k).value);
    }
  }

  /** Splaying keeps search order and the mapping every key reads. */
  lemma SplayKeepsMapping(t: Tree, k: int, x: int)
    requires Bst(t)
    ensures Bst(Splay(t, k))
    ensures Find(Splay(t, k), x) == Find(t, x)
  {
    SameItemsSameFind(Splay(t, k), t, x);
  }

  /**
   * On a search tree, `Get` answers what the plain lookup answers, a hit
   * leaves `k` at the root, and the stored mapping is unchanged.
   */
  lemma GetMatchesFind(t: Tree, k: int)
    requires Bst(t)
    ensures Get(t, k).0 == Find(t, k)
    ensures Find(t, k).Some? ==> Get(t, k).1.Node? && Get(t, k).1.key == k
    ensures forall x :: Find(Get(t, k).1, x) == Find(t, x)
  {
    var s := Splay(t, k);
    forall x ensures Find(s, x) == Find(t, x) {
      SplayKeepsMapping(t, k, x);
    }
    if Find(t, k).Some? {
      FindIffStored(t, k, Find(t, k).value);
      ItemKeyIsKey(t, Item(k, Find(t, k).value));
      SplayFindsPresentKey(t, k);
    }
  }

  /** Inserting into a search tree keeps strict search order and puts `k` at the root. */
  lemma InsertKeepsSearchOrder(t: Tree, k: int, v: int)
    ensures Bst(t) ==> Bst(Insert(t, k, v)) && Insert(t, k, v).key == k
  {
    if t.Node? && Bst(t) {
      var s := Splay(t, k);
      SplayBringsClosest(t, k);
      var Node(a, sk, sv, b) := s;
      assert Keys(Leaf) == {};
      if k in Keys(t) {
        SplayFindsPresentKey(t, k);
      } else if k < sk {
        assert forall y :: y in Keys(a) ==> y < sk;
        assert forall y :: y in Keys(a) ==> y < k;
        assert Bst(Node(Leaf, sk, sv, b));
      } else {
        assert forall y :: y in Keys(b) ==> sk < y;
        assert forall y :: y in Keys(b) ==> k < y;
        assert Bst(Node(a, sk, sv, Leaf));
      }
    }
  }

  /**
   * Inserting into a search tree: a present key keeps its old value (the first
   * write wins) and its items; a new key reads `v`; every other key reads as
   * before.
   */
  lemma InsertUpdatesMapping(t: Tree, k: int, v: int)
    requires Bst(t)
    ensures k in Keys(t) ==> InOrder(Insert(t, k, v)) == InOrder(t)
    ensures Find(Insert(t, k, v), k) == if k in Keys(t) then Find(t, k) else Some(v)
    ensures forall x :: x != k ==> Find(Insert(t, k, v), x) == Find(t, x)
  {
    var r := Insert(t, k, v);
    InsertKeepsSearchOrder(t, k, v);
    if k in Keys(t) {
      SplayFindsPresentKey(t, k);
      SameItemsSameFind(r, t, k);
    } else {
      FindIffStored(r, k, v);
    }
    forall x | x != k ensures Find(r, x) == Find(t, x) {
      SameItemsSameFind(r, t, x);
    }
  }

  /** Insert 5, 3, 8, 1 (each as its own value); a lookup of 3 hits and lifts 3 to the root. */
  lemma LookupExample()
    ensures var t := Insert(Insert(Insert(Insert(Leaf, 5, 5), 3, 3), 8, 8), 1, 1);
            Get(t, 3).0 == Some(3) && Get(t, 3).1.key == 3
  {
  }
}

=== FILE: wrappers.dfy ===
/** Optional values, used where the source returns `None` for "nothing stored". */
module Wrappers {

  datatype Option<+T> = None | Some(value: T)
}
